=== FILE: README.md ===
# Delivery roster and scan reconciliation

This project models the core of a courier's delivery-confirmation app in Dafny.
The courier imports a spreadsheet of customers and their parcel counts. Then
they scan parcel codes, and each code is matched against the roster to count
that customer's parcels.

The model covers:

- the import step, which maps spreadsheet rows to `Customer` records;
- the page's load handler;
- the scan handler: the match, the per-customer increment, the aggregate recomputation and the dialog flags;
- the reset button;
- the buttons that open and close the dialogs.

It also covers the JavaScript primitives these depend on: truthiness, `||`
chains, `toLowerCase`, `includes`, `String(n)` and `parseInt`.

Modules:

- `Js` (`js.dfy`): cell values, truthiness, lower-casing, substring search, integer to decimal string, `parseInt` without a radix.
- `Delivery` (`delivery.dfy`): the `Customer` record, the roster with its aggregates, the sums and the consistency predicate.
- `FileUpload` (`file_upload.dfy`): row to customer, synonym columns, positional ids, the empty-file check.
- `Index` (`index.dfy`): the page state and its handlers: load, scan, reset, dialog flags.
- `Session` (`session.dfy`): upload end to end, the page's events in sequence, and the invariant they keep.

Modelling choices:

- The clock reading is the parameter `now` of the scan.
- The spreadsheet reader's output is the input: a sequence of rows, each a map from column header to cell.
- A scanned code is an opaque string. The page's only caller of the scan handler is the camera dialog's decode callback (`src/components/QRScanner.tsx`), which then closes the dialog. The hardware-scanner hook in `src/hooks/useSunmiScanner.ts` exists but no file uses it, and there is no manual code entry.

Behaviour of the import and the scan handler that the model keeps as the code has it:

- Matching does not trim the code or strip separators. It only lower-cases the code, the waybill number and the name. The id comparison is exact.
- The increment is not clamped. A customer's count can pass its expected parcels (`WaybillScenario`).
- An imported customer has `scanned = false` even when its parcel count is 0.
- The import never sets `waybillNumber`. The search calls `toLowerCase` on it for the first customer it looks at. So every scan against an imported roster throws a TypeError and changes nothing (`ImportedRosterScanThrows`). This throw is the `TypeError` outcome of the scan. It is not a precondition of the scan. A `name` cell that is not a string throws the same way when the search reaches the name test.
- The name test uses substring search. Several customers can match one code, and the first in roster order wins.
- The scan bumps every customer carrying the matched id. It then shows the first of them (`SharedIdBumpsBoth`). Ids are distinct for imported rosters (`ImportedIds`), and there the scan changes exactly one customer (`ScanWithDistinctIds`).

## Model

| member | source | states |
|---|---|---|
| Js.Truthy | src/components/FileUpload.tsx:31-32 | the falsy cell values are exactly the empty string, the number 0 and `false`; every other value is truthy |
| Js.ToJsString | src/components/FileUpload.tsx:32 | the `String` coercion keeps a string, turns a number into its decimal text, and turns a boolean into a word starting with a small letter |
| Js.Lower | src/pages/Index.tsx:36-38 | `toLowerCase` keeps the length, turns each capital into its small letter (32 code points on), leaves no capital, and keeps every character that is not a capital |
| Js.LowerIdempotent | src/pages/Index.tsx:36-38 | lower-casing an already lower-cased string changes nothing |
| Js.LowerConcat | src/pages/Index.tsx:36-38 | within the modelled capitals, lower-casing works character by character: the lower case of a concatenation is the concatenation of the lower cases |
| Js.Includes | src/pages/Index.tsx:38 | `includes` holds exactly when the needle occurs at some position of the haystack |
| Js.IntToString | src/components/FileUpload.tsx:30 | the decimal text of an integer is non-empty, starts with `-` exactly for negatives, is otherwise all digits, has no leading zero except for 0 itself, and is "0" for 0 |
| Js.ParseInt | src/components/FileUpload.tsx:32 | `parseInt` gives a number only when the text holds a digit; text starting with a decimal digit and no `0x`/`0X` prefix always gives a non-negative number; text starting with `-` never gives a positive one |
| Js.ParseIntOfDecimal | src/components/FileUpload.tsx:32 | for leading white space, an optional `+` or `-`, a run of decimal digits and a tail that neither continues the digits nor forms a `0x` prefix, `parseInt` gives the value of the digits, negated under `-`: trailing text is ignored and leading zeros do not count |
| Js.ParseIntOfHex | src/components/FileUpload.tsx:32 | after white space and an optional sign, `0x` or `0X` followed by hexadecimal digits is read in radix 16, negated under `-`, up to the first non-digit |
| Js.ParseIntOfIntToString | src/components/FileUpload.tsx:30-32 | `parseInt` reads back the decimal string of every integer, negative ones included |
| Js.IntToStringInjective | src/components/FileUpload.tsx:30 | distinct integers have distinct decimal strings, so positional ids never collide |
| Js.ParseIntOfBoolCell | src/components/FileUpload.tsx:32 | a boolean parcel cell, coerced and parsed, is NaN |
| Js.ParseIntOfNumberCell | src/components/FileUpload.tsx:32 | a numeric parcel cell always parses to its own number |
| FileUpload.FirstTruthy | src/components/FileUpload.tsx:31-32 | an `a \|\| b \|\| ... \|\| fallback` chain over row columns yields the value of the first column present with a truthy value, or the fallback when there is none |
| FileUpload.CustomerFromRow | src/components/FileUpload.tsx:32 | the customer's parcel count is `parseInt` of the first truthy cell among colis, Colis, parcels, Parcels, nombre, Nombre, else 0 |
| FileUpload.ParseDefaultParcels | src/components/FileUpload.tsx:32 | the fallback text "0" parses to 0 |
| FileUpload.FalsyCellsFallThrough | src/components/FileUpload.tsx:31-32 | a numeric 0 or an empty string is skipped for the next synonym, and a header spelled otherwise (CLIENT) is never read |
| FileUpload.ParcelsOf | src/components/FileUpload.tsx:32 | the parcel count is `parseInt` of the first count column holding a truthy cell, and 0 when no count column does |
| FileUpload.ToCustomer | src/components/FileUpload.tsx:29-34 | the customer built from the row at position `index` has as id exactly the decimal text of index+1 (which reads back as index+1), the first truthy name cell or the placeholder as name, the row's parcel count, and is unscanned with no waybill number, count or scan time |
| FileUpload.ReadRows | src/components/FileUpload.tsx:29-41 | no rows gives "no data" and nothing is loaded; otherwise there is one customer per row, in row order; the i-th id is the decimal text of i+1, so ids are distinct; parcels come from the row; the customer is not scanned and has no waybill, no count and no scan time; the scanned sum is 0 |
| FileUpload.ImportedIds | src/components/FileUpload.tsx:29-30 | each imported id is the decimal text of its 1-based row position and parses back to it, and ids are pairwise distinct |
| FileUpload.NoneScanned | src/components/FileUpload.tsx:33 | customers with no scanned count sum to zero scanned parcels |
| Delivery.Reduce | src/pages/Index.tsx:24 | the page's `reduce` with an addition callback returns its start value on an empty roster, and never ends below the start when every added value is non-negative |
| Delivery.ReduceParcels | src/pages/Index.tsx:24 | the page's `reduce` over the parcels, started from any value, adds the sum of all customers' parcels to it |
| Delivery.ReduceScanned | src/pages/Index.tsx:67 | the page's `reduce` over the scanned counts (absent read as 0), started from any value, adds the sum of all scanned counts to it |
| Delivery.CountIdDistinct | src/pages/Index.tsx:46-47 | in a roster with distinct ids, an id that occurs is carried by exactly one customer |
| Index.Initial | src/pages/Index.tsx:13-21 | the page starts with an empty roster whose aggregates agree with it, both dialogs closed and no customer shown |
| Index.HandleDataLoaded | src/pages/Index.tsx:23-31 | loading stores the customer sequence unchanged; total customers is its length, total parcels the sum of parcels, scanned parcels 0; the dialogs are untouched |
| Index.Reset | src/pages/Index.tsx:153-160 | reset leaves an empty roster with zero aggregates and leaves the dialog flags as they were |
| Index.OpenScanner | src/pages/Index.tsx:100-104 | the scan button opens the scanner only when the roster is non-empty, because it is disabled otherwise |
| Index.CloseScanner | src/pages/Index.tsx:173 | closing the scanner clears only the scanner flag |
| Index.CloseResult | src/pages/Index.tsx:180 | closing the result dialog clears only the result flag |
| Index.Test | src/pages/Index.tsx:35-38 | the search predicate holds exactly when the waybill number is present and equals the code ignoring case, or the id equals the code, or the name is a string containing the code ignoring case; it throws exactly when the waybill number is missing, or both earlier tests fail and the name is not a string |
| Index.FindFrom | src/pages/Index.tsx:34-39 | the search stops at the first customer whose test does not miss, with every earlier one missing; it runs off the end exactly when every remaining customer misses |
| Index.Find | src/pages/Index.tsx:34-39 | `find` over the roster is first-match-wins in roster order, and finds nothing exactly when every customer misses |
| Index.Bump | src/pages/Index.tsx:48-62 | the matched customer's count (absent read as 0) goes up by exactly one with no clamp; `scanned` is (new count >= parcels); the scan time is the clock reading; identity, name and parcels are kept |
| Index.BumpId | src/pages/Index.tsx:46-65 | the map keeps length and order, bumps every customer carrying the id, keeps every other one, keeps the parcel sum, and raises the scanned sum by the number of customers carrying the id |
| Index.FirstWithId | src/pages/Index.tsx:75 | the lookup of the updated customer returns the first position carrying the id |
| Index.HandleQRScan | src/pages/Index.tsx:33-79 | "not found" exactly when every customer misses; TypeError exactly when the first non-miss throws; on either, nothing changes. Otherwise the first hit's id is bumped throughout, and the customer shown is the first customer of the updated roster carrying that id; the totals are kept; the scanned aggregate is recomputed as the sum; the result dialog opens on the updated customer and the scanner closes; `complete` is (count >= parcels) |
| Index.ScanWithDistinctIds | src/pages/Index.tsx:46-73 | with distinct ids, only the matched customer changes, the result shows its bumped record, and a consistent aggregate grows by exactly one |
| Index.SharedIdBumpsBoth | src/pages/Index.tsx:46-76 | two customers sharing an id are both bumped by one scan; the aggregate grows by two and the result dialog shows the first of them |
| Index.EmptyCodeHitsFirst | src/pages/Index.tsx:34-39 | the empty code matches the first customer when it has a waybill number and a string name |
| Session.UploadFile | src/components/FileUpload.tsx:36-41 | an empty sheet leaves the state untouched; otherwise the roster becomes exactly the mapped rows, one customer per row with distinct ids and consistent aggregates, and the dialog flags and the shown customer are kept |
| Session.Step | src/pages/Index.tsx:23-180 | an upload against a loaded roster does nothing and against an empty one runs the upload handler; reset empties the roster; every other event keeps the totals and the roster length; a scan is the scan handler's state with the scanner dialog then closed, or the unchanged state when the handler throws; the reload button is `Reset`, and the dialog buttons are `OpenScanner`, `CloseScanner` and `CloseResult` |
| Session.ScanClosesScanner | src/components/QRScanner.tsx:39-44 | a scan that does not throw leaves the scanner dialog closed, a not-found one included, with the roster as the scan handler leaves it; a not-found scan keeps the roster and the result dialog; a throwing scan skips the closing and changes nothing |
| Session.StepKeepsGood | src/pages/Index.tsx:23-79 | every page event keeps the aggregates equal to the roster's sums, ids distinct, and each customer's flag equal to (count >= parcels) once scanned |
| Session.RunKeepsGood | src/pages/Index.tsx:23-79 | the invariant holds after any sequence of page events |
| Session.ScanAddsOne | src/pages/Index.tsx:67-73 | in a consistent roster with distinct ids, a successful scan raises the scanned aggregate by exactly one and changes only the customer where the search stopped, into its bump |
| Session.ImportedRosterScanThrows | src/pages/Index.tsx:36 | after a non-empty import, every scan throws at the first customer's missing waybill number and changes nothing |
| Session.WaybillScenario | src/pages/Index.tsx:36-60 | for waybill AWB001 with two parcels, "awb-001" is not found; "awb001" scanned twice completes the customer; a third scan takes its count to 3 |

## Left out

- Reading the workbook (`FileReader`, the XLSX library, the first sheet, `sheet_to_json`) and the `try/catch` around it: this is a foreign library and asynchronous I/O. The model starts from the parsed rows.
- FileUpload.ReadRows: requires every row's parcel cell to parse. A cell `parseInt` turns into NaN is outside the model, and so is NaN arithmetic in the totals.
- Numbers are integers. Fractional cells (which `parseInt` truncates) and numbers whose decimal form uses exponent notation (1e21 and up) are not modelled.
- Strings are sequences of Unicode characters. JavaScript strings are sequences of UTF-16 code units and may hold lone surrogates; the model does not represent those.
- Js.Lower: maps only the ASCII and Latin-1 capitals. The full Unicode case mapping of `toLowerCase` (including mappings that change string length) is not modelled.
- Toast notices, and the text of the progress message, are not modelled. The choice between the "complete" and "partial" message survives as the `complete` flag of the scan outcome.
- `scanTime` is an opaque clock reading passed to the scan. The `Date` object is not modelled.
- `scanned` is optional in the record type but always set by the only producer, so it is a plain boolean here.
- React's `useState` mechanics and rendering are not modelled. Each handler is a function from state to state. Events are processed one at a time.
- Camera scanning (`html5-qrcode`) is not modelled: it is a foreign device call with asynchronous start and stop. Its decode callback is the `Scan` event: the decoded text, the scan handler, then the closing of the dialog. The success toast it shows is not modelled.
- The hardware-scanner hook (`useSunmiScanner`) is not modelled: no page or component uses it.
- The scan-progress counter component is not modelled: its percentage is a floating-point division, undefined for 0 parcels, and the page does not use it.
- The result dialog, the customer list and the statistics cards are not modelled: they only render. Their one subtraction (remaining parcels) is display-only.
- The Capacitor configuration is not modelled: it is static.

=== FILE: delivery.dfy ===
/** The delivery roster: one record per customer and the roster-wide
    aggregates the home page shows. */
module Delivery {
  import opened Js

  /** The clock reading stored when a customer is scanned; the clock itself is
      a parameter of the scan. */
  type Timestamp = int

  /** A customer of the delivery run. `name` keeps whatever cell value the
      import picked (a spreadsheet cell may hold a number or a boolean);
      `waybillNumber` and `scannedParcels` are absent on imported customers. */
  datatype Customer = Customer(
    id: string,
    waybillNumber: Option<string>,
    name: Value,
    parcels: int,
    scanned: bool,
    scannedParcels: Option<int>,
    scanTime: Option<Timestamp>)

  /** The roster and its aggregates. */
  datatype DeliveryData = DeliveryData(
    customers: seq<Customer>,
    totalCustomers: int,
    totalParcels: int,
    scannedParcels: int)

  /** The empty roster the page starts from and returns to on reset. */
  const EmptyData := DeliveryData([], 0, 0, 0)

  /** `customer.scannedParcels || 0` */
  function ScannedOf(c: Customer): int {
    match c.scannedParcels
    case None => 0
    case Some(n) => n
  }

  /** A customer's expected parcels. */
  function Parcels(c: Customer): int {
    c.parcels
  }

  /** Sum of the expected parcels. */
  function SumParcels(cs: seq<Customer>): int {
    if cs == [] then 0 else cs[0].parcels + SumParcels(cs[1..])
  }

  /** Sum of the scanned parcels, absent counts read as 0. */
  function SumScanned(cs: seq<Customer>): int {
    if cs == [] then 0 else ScannedOf(cs[0]) + SumScanned(cs[1..])
  }

  /** How many customers carry the given id; zero exactly when none does. */
  function CountId(cs: seq<Customer>, id: string): (k: nat)
    ensures k == 0 <==> forall j :: 0 <= j < |cs| ==> cs[j].id != id
    decreases |cs|
  {
    if cs == [] then 0 else (if cs[0].id == id then 1 else 0) + CountId(cs[1..], id)
  }

  predicate DistinctIds(cs: seq<Customer>) {
    forall i, j :: 0 <= i < j < |cs| ==> cs[i].id != cs[j].id
  }

  /** The aggregates agree with the roster they summarise. */
  predicate Consistent(d: DeliveryData) {
    && d.totalCustomers == |d.customers|
    && d.totalParcels == SumParcels(d.customers)
    && d.scannedParcels == SumScanned(d.customers)
  }

  /** With distinct ids, an id that occurs occurs exactly once. */
  lemma {:induction false} CountIdDistinct(cs: seq<Customer>, i: int)
    requires DistinctIds(cs)
    requires 0 <= i < |cs|
    ensures CountId(cs, cs[i].id) == 1
    decreases |cs|
  {
    var rest := cs[1..];
    assert DistinctIds(rest) by {
      forall a, b | 0 <= a < b < |rest|
        ensures rest[a].id != rest[b].id
      {
        assert rest[a] == cs[a + 1] && rest[b] == cs[b + 1];
      }
    }
    if i == 0 {
      assert forall j :: 0 <= j < |rest| ==> rest[j].id != cs[0].id by {
        forall j | 0 <= j < |rest|
          ensures rest[j].id != cs[0].id
        {
          assert rest[j] == cs[j + 1];
        }
      }
    } else {
      assert rest[i - 1] == cs[i];
      CountIdDistinct(rest, i - 1);
    }
  }

  /** `customers.reduce((sum, c) => sum + f(c), acc)`: a left fold adding
      the customers' values in roster order, starting from `acc`. */
  function Reduce(f: Customer -> int, acc: int, cs: seq<Customer>): (r: int)
    ensures cs == [] ==> r == acc
    ensures (forall j :: 0 <= j < |cs| ==> f(cs[j]) >= 0) ==> r >= acc
    decreases |cs|
  {
    if cs == [] then acc
    else
      assert forall j :: 0 <= j < |cs| - 1 ==> cs[1..][j] == cs[j + 1];
      Reduce(f, acc + f(cs[0]), cs[1..])
  }

  /** The page's parcel reduce computes the parcel sum. */
  lemma {:induction false} ReduceParcels(acc: int, cs: seq<Customer>)
    ensures Reduce(Parcels, acc, cs) == acc + SumParcels(cs)
    decreases |cs|
  {
    if cs != [] {
      ReduceParcels(acc + cs[0].parcels, cs[1..]);
    }
  }

  /** The page's scanned-parcel reduce (absent counts read as 0) computes the
      scanned sum. */
  lemma {:induction false} ReduceScanned(acc: int, cs: seq<Customer>)
    ensures Reduce(ScannedOf, acc, cs) == acc + SumScanned(cs)
    decreases |cs|
  {
    if cs != [] {
      ReduceScanned(acc + ScannedOf(cs[0]), cs[1..]);
    }
  }
}

=== FILE: file_upload.dfy ===
/** Turning the rows of an already-parsed spreadsheet into the roster, and the
    empty-file check that decides whether the roster is loaded at all. */
module FileUpload {
  import opened Js
  import opened Delivery

  /** One spreadsheet row as the reader hands it over: column header to cell.
      A column the row has no value for is simply not a key. */
  type Row = map<string, Value>

  /** Header spellings read for the customer name, in priority order. */
  const NameColumns: seq<string> := ["client", "Client", "nom", "Nom", "name", "Name"]

  /** Header spellings read for the parcel count, in priority order. */
  const ParcelColumns: seq<string> := ["colis", "Colis", "parcels", "Parcels", "nombre", "Nombre"]

  /** The name given to a row with no usable name column. */
  const NoName: Value := Str("Client sans nom")

  /** The parcel text read for a row with no usable count column. */
  const NoParcels: Value := Str("0")

  /** Column `k` is present in the row with a truthy value. */
  predicate Given(row: Row, k: string) {
    k in row && Truthy(row[k])
  }

  /** `keys[i]` is the first column of `keys` the row gives a truthy value. */
  predicate ChosenAt(row: Row, keys: seq<string>, i: int) {
    && 0 <= i < |keys|
    && Given(row, keys[i])
    && forall j :: 0 <= j < i ==> !Given(row, keys[j])
  }

  /** `row[keys[0]] || row[keys[1]] || ... || fallback`: the value of the first
      column holding a truthy value, or the fallback when none does. */
  function FirstTruthy(row: Row, keys: seq<string>, fallback: Value): (v: Value)
    ensures forall i :: ChosenAt(row, keys, i) ==> v == row[keys[i]]
    ensures (forall i :: 0 <= i < |keys| ==> !Given(row, keys[i])) ==> v == fallback
    decreases |keys|
  {
    if keys == [] then fallback
    else if Given(row, keys[0]) then row[keys[0]]
    else
      var v := FirstTruthy(row, keys[1..], fallback);
      assert forall i :: ChosenAt(row, keys, i) ==> ChosenAt(row, keys[1..], i - 1) by {
        forall i | ChosenAt(row, keys, i)
          ensures ChosenAt(row, keys[1..], i - 1)
        {
          assert i != 0;
          forall j | 0 <= j < i - 1
            ensures !Given(row, keys[1..][j])
          {
            assert keys[1..][j] == keys[j + 1];
          }
        }
      }
      v
  }

  /** `parseInt(row.colis || row.Colis || ... || "0")`; `None` stands for
      NaN. The count is read from the first count column with a truthy cell,
      and is 0 when there is none. */
  function ParcelsOf(row: Row): (r: Option<int>)
    ensures forall k :: ChosenAt(row, ParcelColumns, k) ==> r == ParseInt(ToJsString(row[ParcelColumns[k]]))
    ensures (forall k :: 0 <= k < |ParcelColumns| ==> !Given(row, ParcelColumns[k])) ==> r == Some(0)
  {
    var cell := FirstTruthy(row, ParcelColumns, NoParcels);
    ParseDefaultParcels();
    assert (forall k :: 0 <= k < |ParcelColumns| ==> !Given(row, ParcelColumns[k])) ==> cell == NoParcels;
    assert forall k :: ChosenAt(row, ParcelColumns, k) ==> cell == row[ParcelColumns[k]];
    ParseInt(ToJsString(cell))
  }

  /** Every row's parcel cell reads as a number (NaN is outside the model). */
  predicate Parsable(rows: seq<Row>) {
    forall i :: 0 <= i < |rows| ==> ParcelsOf(rows[i]).Some?
  }

  /** The customer built from the row at 0-based position `index`: its id
      reads back as the 1-based position, its parcels are the row's count,
      and it is unscanned, with no waybill number, count or scan time. */
  function ToCustomer(row: Row, index: nat): (c: Customer)
    requires ParcelsOf(row).Some?
    ensures c.id == IntToString(index + 1) && ParseInt(c.id) == Some(index + 1)
    ensures forall k :: ChosenAt(row, NameColumns, k) ==> c.name == row[NameColumns[k]]
    ensures (forall k :: 0 <= k < |NameColumns| ==> !Given(row, NameColumns[k])) ==> c.name == NoName
    ensures Some(c.parcels) == ParcelsOf(row)
    ensures !c.scanned && c.waybillNumber.None? && c.scannedParcels.None? && c.scanTime.None?
  {
    ParseIntOfIntToString(index + 1);
    Customer(
      id := IntToString(index + 1),
      waybillNumber := None,
      name := FirstTruthy(row, NameColumns, NoName),
      parcels := ParcelsOf(row).value,
      scanned := false,
      scannedParcels := None,
      scanTime := None)
  }

  /** What reading the rows leads to: nothing loaded (the "no data" notice),
      or a roster handed once to the page's load handler. */
  datatype Upload = NoData | Loaded(customers: seq<Customer>)

  /** The rows-to-roster step of the upload handler: map every row in order,
      and load nothing when there are no rows. */
  function ReadRows(rows: seq<Row>): (r: Upload)
    requires Parsable(rows)
    ensures r.NoData? <==> rows == []
    ensures r.Loaded? ==> |r.customers| == |rows|
    ensures r.Loaded? ==> forall i :: 0 <= i < |rows| ==> r.customers[i] == ToCustomer(rows[i], i)
    ensures r.Loaded? ==> DistinctIds(r.customers)
    ensures r.Loaded? ==> forall i :: 0 <= i < |rows| ==>
      && r.customers[i].id == IntToString(i + 1)
      && ParseInt(r.customers[i].id) == Some(i + 1)
      && Some(r.customers[i].parcels) == ParcelsOf(rows[i])
      && !r.customers[i].scanned
      && r.customers[i].waybillNumber.None?
      && r.customers[i].scannedParcels.None?
      && r.customers[i].scanTime.None?
    ensures r.Loaded? ==> SumScanned(r.customers) == 0
  {
    if rows == [] then NoData
    else
      var cs := seq(|rows|, i requires 0 <= i < |rows| => ToCustomer(rows[i], i));
      ImportedIds(rows, cs);
      NoneScanned(cs);
      Loaded(cs)
  }

  /** The ids of the mapped rows are positional, hence pairwise distinct. */
  lemma ImportedIds(rows: seq<Row>, cs: seq<Customer>)
    requires Parsable(rows)
    requires |cs| == |rows|
    requires forall i :: 0 <= i < |rows| ==> cs[i] == ToCustomer(rows[i], i)
    ensures forall i :: 0 <= i < |cs| ==> cs[i].id == IntToString(i + 1) && ParseInt(cs[i].id) == Some(i + 1)
    ensures DistinctIds(cs)
  {
    forall i | 0 <= i < |cs|
      ensures cs[i].id == IntToString(i + 1) && ParseInt(cs[i].id) == Some(i + 1)
    {
      ParseIntOfIntToString(i + 1);
    }
    forall i, j | 0 <= i < j < |cs|
      ensures cs[i].id != cs[j].id
    {
      IntToStringInjective(i + 1, j + 1);
    }
  }

  /** A roster nobody has scanned yet sums to zero scanned parcels. */
  lemma {:induction false} NoneScanned(cs: seq<Customer>)
    requires forall i :: 0 <= i < |cs| ==> cs[i].scannedParcels.None?
    ensures SumScanned(cs) == 0
    decreases |cs|
  {
    if cs != [] {
      NoneScanned(cs[1..]);
    }
  }

  /** The default parcel text `"0"` reads as 0. */
  lemma ParseDefaultParcels()
    ensures ParseInt(ToJsString(NoParcels)) == Some(0)
  {
    assert DigitPrefix("0", 10) == "0";
  }

  /** The customer built from a row counts the parcels `parseInt` reads in
      the first truthy count column, or 0 when there is none. */
  lemma CustomerFromRow(row: Row, index: nat)
    requires ParcelsOf(row).Some?
    ensures forall k :: ChosenAt(row, ParcelColumns, k) ==>
      Some(ToCustomer(row, index).parcels) == ParseInt(ToJsString(row[ParcelColumns[k]]))
    ensures (forall k :: 0 <= k < |ParcelColumns| ==> !Given(row, ParcelColumns[k])) ==>
      ToCustomer(row, index).parcels == 0
  {
    ParseDefaultParcels();
  }

  /** A numeric 0 or an empty string is falsy and falls through to the next
      synonym; an unknown spelling such as `CLIENT` is never read. */
  lemma FalsyCellsFallThrough()
    ensures var row := map["client" := Num(0), "Nom" := Str("Ali"), "CLIENT" := Str("X"),
                           "colis" := Str(""), "Nombre" := Num(3)];
      && FirstTruthy(row, NameColumns, NoName) == Str("Ali")
      && ParcelsOf(row) == Some(3)
  {
    var row := map["client" := Num(0), "Nom" := Str("Ali"), "CLIENT" := Str("X"),
                    "colis" := Str(""), "Nombre" := Num(3)];
    assert ChosenAt(row, NameColumns, 3);
    assert ChosenAt(row, ParcelColumns, 5);
    ParseIntOfNumberCell(3);
  }
}

=== FILE: index.dfy ===
/** The home page's state and its handlers: loading a roster, reconciling a
    scanned code against it, resetting it, and the two dialogs' flags. */
module Index {
  import opened Js
  import opened Delivery

  /** The page's state: the roster with its aggregates, whether the scanner
      dialog and the scan result dialog are open, and the customer the result
      dialog shows. */
  datatype AppState = AppState(
    data: DeliveryData,
    scannerOpen: bool,
    resultOpen: bool,
    scannedCustomer: Option<Customer>)

  /** The state the page starts in: an empty roster whose aggregates agree
      with it, both dialogs closed, no customer shown. */
  function Initial(): (st: AppState)
    ensures st.data.customers == [] && Consistent(st.data)
    ensures !st.scannerOpen && !st.resultOpen && st.scannedCustomer.None?
  {
    AppState(EmptyData, false, false, None)
  }

  // ---------------------------------------------------------------------
  // Loading and resetting

  /** The load handler: store the roster as given and set the aggregates;
      the scanned aggregate starts at 0 whatever the customers carry. */
  function HandleDataLoaded(st: AppState, customers: seq<Customer>): (st': AppState)
    ensures st'.data.customers == customers
    ensures st'.data.totalCustomers == |customers|
    ensures st'.data.totalParcels == SumParcels(customers)
    ensures st'.data.scannedParcels == 0
    ensures st'.scannerOpen == st.scannerOpen && st'.resultOpen == st.resultOpen
    ensures st'.scannedCustomer == st.scannedCustomer
  {
    st.(data := DeliveryData(customers, |customers|, SumParcels(customers), 0))
  }

  /** The "load a new file" button: back to the empty roster; the dialogs'
      flags are left as they are. */
  function Reset(st: AppState): (st': AppState)
    ensures st'.data.customers == [] && Consistent(st'.data)
    ensures st'.scannerOpen == st.scannerOpen && st'.resultOpen == st.resultOpen
    ensures st'.scannedCustomer == st.scannedCustomer
  {
    st.(data := EmptyData)
  }

  /** The scan button, which is disabled while the roster is empty. */
  function OpenScanner(st: AppState): (st': AppState)
    ensures st'.scannerOpen <==> st.scannerOpen || st.data.customers != []
    ensures st'.data == st.data && st'.resultOpen == st.resultOpen
    ensures st'.scannedCustomer == st.scannedCustomer
  {
    if st.data.customers == [] then st else st.(scannerOpen := true)
  }

  /** Closing the scanner dialog. */
  function CloseScanner(st: AppState): (st': AppState)
    ensures !st'.scannerOpen
    ensures st'.data == st.data && st'.resultOpen == st.resultOpen
    ensures st'.scannedCustomer == st.scannedCustomer
  {
    st.(scannerOpen := false)
  }

  /** Closing the scan result dialog. */
  function CloseResult(st: AppState): (st': AppState)
    ensures !st'.resultOpen
    ensures st'.data == st.data && st'.scannerOpen == st.scannerOpen
    ensures st'.scannedCustomer == st.scannedCustomer
  {
    st.(resultOpen := false)
  }

  // ---------------------------------------------------------------------
  // Matching a scanned code

  /** What evaluating the search predicate on one customer does: it holds, it
      fails, or it throws a TypeError (`toLowerCase` of a missing waybill
      number, or of a name that is not a string). */
  datatype Verdict = Hit | Miss | Throw

  /** The predicate passed to `customers.find`: the lower-cased waybill number
      equals the lower-cased code, or the id equals the code exactly, or the
      lower-cased name contains the lower-cased code. The three tests are
      evaluated left to right and stop at the first that holds. */
  function Test(c: Customer, code: string): (v: Verdict)
    ensures v == Hit <==> (c.waybillNumber.Some? &&
                           (|| Lower(c.waybillNumber.value) == Lower(code)
                            || c.id == code
                            || (c.name.Str? && Includes(Lower(c.name.s), Lower(code)))))
    ensures v == Throw <==> (c.waybillNumber.None? ||
                             (Lower(c.waybillNumber.value) != Lower(code) && c.id != code && !c.name.Str?))
  {
    match c.waybillNumber
    case None => Throw
    case Some(w) =>
      if Lower(w) == Lower(code) then Hit
      else if c.id == code then Hit
      else
        match c.name
        case Str(s) => if Includes(Lower(s), Lower(code)) then Hit else Miss
        case _ => Throw
  }

  /** Where `find` stops: at the first customer whose test does not miss, or
      after the last one. */
  datatype Search = StopAt(index: nat) | Exhausted

  /** Every customer before position `i` misses. */
  predicate MissesBefore(cs: seq<Customer>, code: string, i: int)
    requires i <= |cs|
  {
    forall j :: 0 <= j < i ==> Test(cs[j], code) == Miss
  }

  /** Position `i` is where `find` stops: it does not miss, all before it do. */
  predicate FirstStop(cs: seq<Customer>, code: string, i: int) {
    0 <= i < |cs| && Test(cs[i], code) != Miss && MissesBefore(cs, code, i)
  }

  /** `customers.find(...)` run from position `from`, all earlier positions
      having missed. */
  function FindFrom(cs: seq<Customer>, code: string, from: nat): (r: Search)
    requires from <= |cs| && MissesBefore(cs, code, from)
    ensures r.StopAt? ==> FirstStop(cs, code, r.index)
    ensures r.Exhausted? <==> MissesBefore(cs, code, |cs|)
    decreases |cs| - from
  {
    if from == |cs| then Exhausted
    else if Test(cs[from], code) != Miss then StopAt(from)
    else FindFrom(cs, code, from + 1)
  }

  /** The linear search of the scan handler, in roster order. */
  function Find(cs: seq<Customer>, code: string): (r: Search)
    ensures r.StopAt? ==> FirstStop(cs, code, r.index)
    ensures r.Exhausted? <==> forall j :: 0 <= j < |cs| ==> Test(cs[j], code) == Miss
  {
    FindFrom(cs, code, 0)
  }

  // ---------------------------------------------------------------------
  // Recording a scan

  /** The matched customer after one more parcel: the count (absent read as
      0) goes up by one with no upper bound, completeness is recomputed from
      it, and the scan time is the clock reading. */
  function Bump(c: Customer, now: Timestamp): (b: Customer)
    ensures ScannedOf(b) == ScannedOf(c) + 1 && b.scannedParcels.Some?
    ensures b.scanned <==> ScannedOf(b) >= c.parcels
    ensures b.scanTime == Some(now)
    ensures b.id == c.id && b.waybillNumber == c.waybillNumber
    ensures b.name == c.name && b.parcels == c.parcels
  {
    var n := ScannedOf(c) + 1;
    c.(scanned := n >= c.parcels, scannedParcels := Some(n), scanTime := Some(now))
  }

  /** `customers.map(...)`: every customer carrying `id` is bumped, every
      other is kept; length and order are kept. */
  function BumpId(cs: seq<Customer>, id: string, now: Timestamp): (r: seq<Customer>)
    ensures |r| == |cs|
    ensures forall j :: 0 <= j < |cs| ==> r[j] == if cs[j].id == id then Bump(cs[j], now) else cs[j]
    ensures forall j :: 0 <= j < |cs| ==> r[j].id == cs[j].id
    ensures SumParcels(r) == SumParcels(cs)
    ensures SumScanned(r) == SumScanned(cs) + CountId(cs, id)
    decreases |cs|
  {
    if cs == [] then []
    else
      var head := if cs[0].id == id then Bump(cs[0], now) else cs[0];
      var tail := BumpId(cs[1..], id, now);
      var r := [head] + tail;
      assert r[1..] == tail;
      r
  }

  /** `updatedCustomers.find((c) => c.id === id)`: the first position carrying `id`. */
  function FirstWithId(cs: seq<Customer>, id: string): (k: nat)
    requires exists j :: 0 <= j < |cs| && cs[j].id == id
    ensures k < |cs| && cs[k].id == id
    ensures forall j :: 0 <= j < k ==> cs[j].id != id
    decreases |cs|
  {
    if cs[0].id == id then 0
    else
      var j :| 0 <= j < |cs| && cs[j].id == id;
      assert cs[1..][j - 1].id == id;
      1 + FirstWithId(cs[1..], id)
  }

  /** The search stopped at position `i`, the roster became `updated` by
      bumping every customer carrying `cs[i]`'s id, and `shown` is the first
      customer of `updated` carrying that id. */
  predicate ScannedFrom(cs: seq<Customer>, code: string, now: Timestamp,
                        updated: seq<Customer>, shown: Customer, i: int) {
    && FirstStop(cs, code, i)
    && updated == BumpId(cs, cs[i].id, now)
    && updated[i].id == cs[i].id
    && shown == updated[FirstWithId(updated, cs[i].id)]
  }

  /** How a scan ends: no customer matched (the "not found" notice), the
      search threw a TypeError, or a customer was scanned; `complete` says
      whether that customer now has all its parcels. */
  datatype ScanOutcome = NotFound | TypeError | Scanned(customer: Customer, complete: bool)

  /** The state after a scan together with how it ended. */
  datatype ScanStep = ScanStep(state: AppState, outcome: ScanOutcome)

  /** The scan handler, with the clock reading `now` passed in. */
  function HandleQRScan(st: AppState, code: string, now: Timestamp): (r: ScanStep)
    ensures r.outcome.NotFound? <==> forall j :: 0 <= j < |st.data.customers| ==> Test(st.data.customers[j], code) == Miss
    ensures r.outcome.TypeError? <==> exists i :: FirstStop(st.data.customers, code, i) && Test(st.data.customers[i], code) == Throw
    ensures r.outcome.Scanned? <==> exists i :: FirstStop(st.data.customers, code, i) && Test(st.data.customers[i], code) == Hit
    ensures !r.outcome.Scanned? ==> r.state == st
    ensures r.outcome.Scanned? ==> exists i :: ScannedFrom(st.data.customers, code, now, r.state.data.customers, r.outcome.customer, i)
    ensures r.outcome.Scanned? ==>
      && r.state.data.totalCustomers == st.data.totalCustomers
      && r.state.data.totalParcels == st.data.totalParcels
      && r.state.data.scannedParcels == SumScanned(r.state.data.customers)
      && SumParcels(r.state.data.customers) == SumParcels(st.data.customers)
      && |r.state.data.customers| == |st.data.customers|
    ensures r.outcome.Scanned? ==>
      && r.state.resultOpen && !r.state.scannerOpen
      && r.state.scannedCustomer == Some(r.outcome.customer)
      && r.outcome.customer in r.state.data.customers
      && (r.outcome.complete <==> ScannedOf(r.outcome.customer) >= r.outcome.customer.parcels)
  {
    var cs := st.data.customers;
    match Find(cs, code)
    case Exhausted => ScanStep(st, NotFound)
    case StopAt(i) =>
      if Test(cs[i], code) == Throw then ScanStep(st, TypeError)
      else
        var id := cs[i].id;
        var updated := BumpId(cs, id, now);
        var k := FirstWithId(updated, id);
        var shown := updated[k];
        assert ScannedFrom(cs, code, now, updated, shown, i);
        var data := st.data.(customers := updated, scannedParcels := SumScanned(updated));
        ScanStep(AppState(data, false, true, Some(shown)), Scanned(shown, shown.scanned))
  }

  // ---------------------------------------------------------------------
  // Properties of a scan

  /** With distinct ids, a scan that matches position `i` bumps that customer
      and no other, shows the bumped record, and, on a roster whose
      aggregates were consistent, adds exactly one scanned parcel. */
  lemma ScanWithDistinctIds(st: AppState, code: string, now: Timestamp, i: int)
    requires DistinctIds(st.data.customers)
    requires FirstStop(st.data.customers, code, i) && Test(st.data.customers[i], code) == Hit
    ensures var r := HandleQRScan(st, code, now);
      && r.outcome == Scanned(Bump(st.data.customers[i], now), Bump(st.data.customers[i], now).scanned)
      && r.state.data.customers == st.data.customers[i := Bump(st.data.customers[i], now)]
      && (Consistent(st.data) ==> Consistent(r.state.data) && r.state.data.scannedParcels == st.data.scannedParcels + 1)
  {
    var cs := st.data.customers;
    var id := cs[i].id;
    assert Find(cs, code) == StopAt(i) by {
      var f := Find(cs, code);
      assert Test(cs[i], code) != Miss;
      assert f.StopAt?;
      assert !(f.index < i) && !(i < f.index);
    }
    var updated := BumpId(cs, id, now);
    assert updated == cs[i := Bump(cs[i], now)];
    assert FirstWithId(updated, id) == i by {
      assert updated[i].id == id;
      assert forall j :: 0 <= j < i ==> updated[j].id != id;
    }
    CountIdDistinct(cs, i);
  }

  /** Two customers sharing an id are bumped together by one scan: the
      aggregate grows by two and the result shows the first of them. */
  lemma SharedIdBumpsBoth(now: Timestamp)
    ensures
      var a := Customer("1", Some("A1"), Str("Ali"), 1, false, None, None);
      var b := Customer("1", Some("B2"), Str("Badr"), 1, false, None, None);
      var st := HandleDataLoaded(Initial(), [a, b]);
      var r := HandleQRScan(st, "b2", now);
      && r.state.data.customers == [Bump(a, now), Bump(b, now)]
      && r.state.data.scannedParcels == 2
      && r.outcome == Scanned(Bump(a, now), true)
  {
    var a := Customer("1", Some("A1"), Str("Ali"), 1, false, None, None);
    var b := Customer("1", Some("B2"), Str("Badr"), 1, false, None, None);
    assert Lower("B2") == "b2" && Lower("b2") == "b2";
    assert Lower("A1") == "a1";
    assert Lower("Ali") == "ali";
    assert !Includes("ali", "b2") by {
      assert forall p :: OccursAt("ali", "b2", p) ==> "ali"[p] == 'b';
    }
    assert Test(a, "b2") == Miss;
    assert Test(b, "b2") == Hit;
    var cs := [a, b];
    assert Find(cs, "b2") == StopAt(1) by {
      assert FirstStop(cs, "b2", 1);
    }
    var updated := BumpId(cs, "1", now);
    assert updated == [Bump(a, now), Bump(b, now)];
    assert FirstWithId(updated, "1") == 0;
    assert SumScanned(updated) == 2 by {
      assert ScannedOf(Bump(a, now)) == 1 && ScannedOf(Bump(b, now)) == 1;
      assert updated[1..] == [Bump(b, now)];
      assert updated[1..][1..] == [];
      assert SumScanned(updated[1..]) == 1;
    }
  }

  /** An empty code stops the search at the first customer: when that
      customer has a waybill number and a string name, it is the one scanned. */
  lemma EmptyCodeHitsFirst(cs: seq<Customer>)
    requires cs != []
    requires cs[0].waybillNumber.Some? && cs[0].name.Str?
    ensures Find(cs, "") == StopAt(0) && Test(cs[0], "") == Hit
  {
    assert OccursAt(Lower(cs[0].name.s), "", 0);
  }
}

=== FILE: js.dfy ===
/** The few JavaScript runtime primitives the delivery core leans on: loosely
    typed spreadsheet cell values and their truthiness, `toLowerCase`,
    `includes`, the conversion of an integer to its decimal string, and the
    global `parseInt` (called without a radix). */
module Js {

  datatype Option<+T> = None | Some(value: T)

  /** A value the spreadsheet reader puts in a row: a string, a number
      (integers only in this model) or a boolean. A missing column is `None`
      in the row's map. */
  datatype Value = Str(s: string) | Num(n: int) | Bool(b: bool)

  /** JavaScript truthiness: the empty string, the number 0 and `false` are
      the falsy values, and every other value is truthy. */
  predicate Truthy(v: Value)
    ensures Truthy(v) <==> v != Str("") && v != Num(0) && v != Bool(false)
  {
    match v
    case Str(s) => s != ""
    case Num(n) => n != 0
    case Bool(b) => b
  }

  /** `String(v)`, the coercion `parseInt` applies to its argument: a string
      is kept, a number becomes its decimal text, and a boolean becomes a
      word that starts with a letter, which `parseInt` reads as NaN
      (`ParseIntOfNumberCell`, `ParseIntOfBoolCell`). */
  function ToJsString(v: Value): (r: string)
    ensures v.Str? ==> r == v.s
    ensures v.Num? ==> r == IntToString(v.n)
    ensures v.Bool? ==> r != [] && 'a' <= r[0] <= 'z'
  {
    match v
    case Str(s) => s
    case Num(n) => IntToString(n)
    case Bool(b) => if b then "true" else "false"
  }

  // ---------------------------------------------------------------------
  // Characters

  predicate IsDecimalDigit(c: char) {
    '0' <= c <= '9'
  }

  predicate IsHexDigit(c: char) {
    IsDecimalDigit(c) || 'a' <= c <= 'f' || 'A' <= c <= 'F'
  }

  function DigitValue(c: char): (d: nat)
    requires IsHexDigit(c)
    ensures d < 16
    ensures IsDecimalDigit(c) <==> d < 10
  {
    if IsDecimalDigit(c) then c as int - '0' as int
    else if 'a' <= c <= 'f' then c as int - 'a' as int + 10
    else c as int - 'A' as int + 10
  }

  /** A digit of the given radix (10 or 16 for `parseInt` without a radix). */
  predicate IsRadixDigit(c: char, radix: nat) {
    IsHexDigit(c) && DigitValue(c) < radix
  }

  /** The characters `parseInt` skips before the number: the WhiteSpace and
      LineTerminator productions of ECMAScript (sections 12.2 and 12.3
      of ECMA-262, 15th edition, ECMAScript 2024), including every space separator of Unicode category Zs. */
  predicate IsWhiteSpace(c: char) {
    var k := c as int;
    k == 0x09 || k == 0x0A || k == 0x0B || k == 0x0C || k == 0x0D || k == 0x20
    || k == 0xA0 || k == 0x1680 || (0x2000 <= k <= 0x200A) || k == 0x2028
    || k == 0x2029 || k == 0x202F || k == 0x205F || k == 0x3000 || k == 0xFEFF
  }

  /** The capitals this model lower-cases: ASCII `A`-`Z` and the Latin-1
      capitals U+00C0-U+00DE except the multiplication sign U+00D7. */
  predicate IsCapital(c: char) {
    'A' <= c <= 'Z' || (0xC0 <= c as int <= 0xDE && c as int != 0xD7)
  }

  /** Lower-case mapping of one character; every character other than the
      capitals above is its own lower case here. */
  function LowerChar(c: char): char {
    if IsCapital(c) then (c as int + 32) as char else c
  }

  /** `s.toLowerCase()`: same length, every capital replaced by its small
      letter (32 code points further on), no capital left, and every
      character that is not a capital kept as it is. */
  function Lower(s: string): (r: string)
    ensures |r| == |s|
    ensures forall i :: 0 <= i < |s| && IsCapital(s[i]) ==> r[i] == (s[i] as int + 32) as char
    ensures forall i :: 0 <= i < |r| ==> !IsCapital(r[i])
    ensures forall i :: 0 <= i < |s| && !IsCapital(s[i]) ==> r[i] == s[i]
  {
    seq(|s|, i requires 0 <= i < |s| => LowerChar(s[i]))
  }

  /** `needle` occurs in `hay` starting at position `i`. */
  predicate OccursAt(hay: string, needle: string, i: int) {
    0 <= i && i + |needle| <= |hay| && hay[i..i + |needle|] == needle
  }

  /** `hay.includes(needle)`: `needle` occurs somewhere in `hay`. */
  function Includes(hay: string, needle: string): (r: bool)
    ensures r <==> exists i :: OccursAt(hay, needle, i)
    decreases |hay|
  {
    if needle <= hay then
      assert OccursAt(hay, needle, 0);
      true
    else if hay == [] then
      false
    else
      var r := Includes(hay[1..], needle);
      assert !OccursAt(hay, needle, 0) by {
        assert OccursAt(hay, needle, 0) ==> needle <= hay;
      }
      assert r ==> exists i :: OccursAt(hay, needle, i) by {
        if r {
          var j :| OccursAt(hay[1..], needle, j);
          assert hay[j + 1..j + 1 + |needle|] == hay[1..][j..j + |needle|];
          assert OccursAt(hay, needle, j + 1);
        }
      }
      assert (exists i :: OccursAt(hay, needle, i)) ==> r by {
        if exists i :: OccursAt(hay, needle, i) {
          var i :| OccursAt(hay, needle, i);
          assert hay[1..][i - 1..i - 1 + |needle|] == hay[i..i + |needle|];
          assert OccursAt(hay[1..], needle, i - 1);
        }
      }
      r
  }

  // ---------------------------------------------------------------------
  // Numbers as text

  function DigitChar(d: nat): (c: char)
    requires d < 10
    ensures IsDecimalDigit(c) && DigitValue(c) == d
  {
    ('0' as int + d) as char
  }

  /** Decimal notation of a natural number, no leading zero. */
  function NatToString(n: nat): (s: string)
    ensures |s| > 0
    ensures forall i :: 0 <= i < |s| ==> IsDecimalDigit(s[i])
    ensures s[0] == '0' <==> n == 0
    ensures n == 0 ==> s == "0"
    decreases n
  {
    if n < 10 then [DigitChar(n)] else NatToString(n / 10) + [DigitChar(n % 10)]
  }

  /** `String(n)` for an integer `n`, which is also what a template literal
      `${n}` produces. */
  function IntToString(n: int): (r: string)
    ensures |r| > 0
    ensures r[0] == '-' <==> n < 0
    ensures forall i :: (if n < 0 then 1 else 0) <= i < |r| ==> IsDecimalDigit(r[i])
    ensures n < 0 ==> |r| > 1 && r[1] != '0'
    ensures r[0] == '0' <==> n == 0
    ensures n == 0 ==> r == "0"
  {
    if n < 0 then "-" + NatToString(-n) else NatToString(n)
  }

  lemma MulNat(a: nat, b: nat)
    ensures a * b >= 0
  {
  }

  /** The value of a digit string read most significant digit first. */
  function DigitsValue(ds: string, radix: nat): nat
    requires forall i :: 0 <= i < |ds| ==> IsRadixDigit(ds[i], radix)
    decreases |ds|
  {
    if ds == [] then 0
    else
      var init := ds[..|ds| - 1];
      assert forall i :: 0 <= i < |init| ==> init[i] == ds[i];
      assert IsRadixDigit(ds[|ds| - 1], radix);
      var v := DigitsValue(init, radix);
      MulNat(v, radix);
      v * radix + DigitValue(ds[|ds| - 1])
  }

  /** The longest prefix of `s` made of digits of the radix. */
  function DigitPrefix(s: string, radix: nat): (p: string)
    ensures p <= s
    ensures forall i :: 0 <= i < |p| ==> IsRadixDigit(p[i], radix)
    ensures |p| == |s| || !IsRadixDigit(s[|p|], radix)
    decreases |s|
  {
    if s != [] && IsRadixDigit(s[0], radix) then [s[0]] + DigitPrefix(s[1..], radix) else []
  }

  /** `s` without its leading white space. */
  function TrimStart(s: string): (t: string)
    ensures |t| <= |s| && t == s[|s| - |t|..]
    ensures t == [] || !IsWhiteSpace(t[0])
    ensures forall i :: 0 <= i < |s| - |t| ==> IsWhiteSpace(s[i])
    decreases |s|
  {
    if s != [] && IsWhiteSpace(s[0]) then TrimStart(s[1..]) else s
  }

  /** The unsigned part of `parseInt`: a `0x`/`0X` prefix selects radix 16,
      otherwise radix 10, and the longest run of digits that follows is the
      number; with no digit at all the result is NaN (`None`). */
  function ParseUnsigned(u: string): (r: Option<nat>)
    ensures r.Some? ==> u != [] && IsDecimalDigit(u[0])
    ensures u != [] && IsDecimalDigit(u[0]) && (|u| < 2 || (u[1] != 'x' && u[1] != 'X')) ==> r.Some?
  {
    var hex := |u| >= 2 && u[0] == '0' && (u[1] == 'x' || u[1] == 'X');
    var radix := if hex then 16 else 10;
    var digits := DigitPrefix(if hex then u[2..] else u, radix);
    assert !hex && digits != [] ==> IsRadixDigit(u[0], 10);
    if digits == [] then None else Some(DigitsValue(digits, radix))
  }

  /** The unsigned reading with the sign applied; NaN stays NaN and
      negative zero is 0. */
  function ApplySign(negative: bool, r: Option<nat>): Option<int> {
    match r
    case None => None
    case Some(m) => Some(if negative then -(m as int) else m)
  }

  /** `parseInt` after the leading white space: one optional sign, then the
      unsigned part. */
  function ParseSigned(t: string): (r: Option<int>)
    ensures r.Some? ==> exists k :: 0 <= k < |t| && IsDecimalDigit(t[k])
    ensures t != [] && IsDecimalDigit(t[0]) && (|t| < 2 || (t[1] != 'x' && t[1] != 'X')) ==>
      r.Some? && r.value >= 0
    ensures t != [] && t[0] == '-' && r.Some? ==> r.value <= 0
  {
    if t != [] && (t[0] == '-' || t[0] == '+') then
      var u := t[1..];
      assert u != [] ==> u[0] == t[1];
      ApplySign(t[0] == '-', ParseUnsigned(u))
    else
      ApplySign(false, ParseUnsigned(t))
  }

  /** `parseInt(s)` with no radix argument; `None` stands for NaN. Leading
      white space is skipped and one sign is read before the unsigned part.
      Negative zero is 0. */
  function ParseInt(s: string): (r: Option<int>)
    ensures r.Some? ==> exists k :: 0 <= k < |s| && IsDecimalDigit(s[k])
    ensures s != [] && IsDecimalDigit(s[0]) && (|s| < 2 || (s[1] != 'x' && s[1] != 'X')) ==>
      r.Some? && r.value >= 0
    ensures s != [] && s[0] == '-' && r.Some? ==> r.value <= 0
  {
    var t := TrimStart(s);
    var r := ParseSigned(t);
    assert r.Some? ==> exists k :: 0 <= k < |s| && IsDecimalDigit(s[k]) by {
      if r.Some? {
        var k :| 0 <= k < |t| && IsDecimalDigit(t[k]);
        assert s[|s| - |t| + k] == t[k];
      }
    }
    assert s != [] && (IsDecimalDigit(s[0]) || s[0] == '-') ==> t == s by {
      if s != [] && (IsDecimalDigit(s[0]) || s[0] == '-') {
        assert !IsWhiteSpace(s[0]);
        assert |s| - |t| == 0;
      }
    }
    r
  }

  // ---------------------------------------------------------------------
  // Lemmas

  /** Reading back the decimal notation of `n` gives `n`. */
  lemma {:induction false} DecimalValueOfNatToString(n: nat)
    ensures DigitsValue(NatToString(n), 10) == n
    decreases n
  {
    var s := NatToString(n);
    if n >= 10 {
      DecimalValueOfNatToString(n / 10);
      assert s[..|s| - 1] == NatToString(n / 10);
    }
  }

  /** A string made only of decimal digits is its own longest digit prefix. */
  lemma {:induction false} AllDigitsPrefix(s: string)
    requires forall i :: 0 <= i < |s| ==> IsDecimalDigit(s[i])
    ensures DigitPrefix(s, 10) == s
    decreases |s|
  {
    if s != [] {
      AllDigitsPrefix(s[1..]);
    }
  }

  /** A non-empty run of decimal digits is read whole, in radix 10. */
  lemma ParseUnsignedOfDigits(d: string)
    requires d != []
    requires forall i :: 0 <= i < |d| ==> IsDecimalDigit(d[i])
    ensures forall i :: 0 <= i < |d| ==> IsRadixDigit(d[i], 10)
    ensures ParseUnsigned(d) == Some(DigitsValue(d, 10))
  {
    assert |d| >= 2 ==> d[1] != 'x' && d[1] != 'X' by {
      if |d| >= 2 {
        assert IsDecimalDigit(d[1]);
      }
    }
    AllDigitsPrefix(d);
  }

  /** The unsigned part of `parseInt` reads a decimal notation back. */
  lemma ParseUnsignedOfNatToString(m: nat)
    ensures ParseUnsigned(NatToString(m)) == Some(m)
  {
    ParseUnsignedOfDigits(NatToString(m));
    DecimalValueOfNatToString(m);
  }

  /** `parseInt(String(n)) == n` for every integer `n`. */
  lemma ParseIntOfIntToString(n: int)
    ensures ParseInt(IntToString(n)) == Some(n)
  {
    var m: nat := if n < 0 then -n else n;
    var d := NatToString(m);
    ParseUnsignedOfNatToString(m);
    var s := IntToString(n);
    assert !IsWhiteSpace(s[0]);
    assert TrimStart(s) == s;
    if n < 0 {
      assert s[1..] == d;
    } else {
      assert s[0] != '-' && s[0] != '+';
    }
  }

  /** Lower-casing twice is lower-casing once. */
  lemma LowerIdempotent(s: string)
    ensures Lower(Lower(s)) == Lower(s)
  {
    var r := Lower(s);
    forall i | 0 <= i < |r|
      ensures Lower(r)[i] == r[i]
    {
      assert !IsCapital(r[i]);
    }
  }

  /** Lower-casing works character by character, so it distributes over
      concatenation. */
  lemma LowerConcat(a: string, b: string)
    ensures Lower(a + b) == Lower(a) + Lower(b)
  {
    var l := Lower(a + b);
    var m := Lower(a) + Lower(b);
    forall i | 0 <= i < |l|
      ensures l[i] == m[i]
    {
      if i < |a| {
        assert (a + b)[i] == a[i];
      } else {
        assert (a + b)[i] == b[i - |a|];
      }
    }
  }

  lemma Regroup(a: string, b: string, c: string, e: string)
    ensures a + b + c + e == a + (b + (c + e))
  {
  }

  lemma Assoc(a: string, b: string, c: string)
    ensures a + b + c == a + (b + c)
  {
  }

  lemma DropPrefix(a: string, b: string)
    ensures (a + b)[|a|..] == b
  {
  }

  /** Skipping leading white space stops at the first other character. */
  lemma {:induction false} TrimStartOfBlanks(w: string, t: string)
    requires forall i :: 0 <= i < |w| ==> IsWhiteSpace(w[i])
    requires t == [] || !IsWhiteSpace(t[0])
    ensures TrimStart(w + t) == t
    decreases |w|
  {
    if w != [] {
      assert (w + t)[1..] == w[1..] + t;
      TrimStartOfBlanks(w[1..], t);
    } else {
      assert w + t == t;
    }
  }

  /** The longest digit prefix of a digit run followed by a non-digit is
      that run. */
  lemma {:induction false} DigitPrefixOfRun(d: string, rest: string, radix: nat)
    requires forall i :: 0 <= i < |d| ==> IsRadixDigit(d[i], radix)
    requires rest == [] || !IsRadixDigit(rest[0], radix)
    ensures DigitPrefix(d + rest, radix) == d
    decreases |d|
  {
    if d != [] {
      assert (d + rest)[1..] == d[1..] + rest;
      DigitPrefixOfRun(d[1..], rest, radix);
      assert d == [d[0]] + d[1..];
    } else {
      assert d + rest == rest;
    }
  }

  /** `parseInt` of decimal text: leading white space `w`, an optional sign
      `p`, a run of decimal digits `d`, and a tail `rest` that neither
      continues the digits nor turns `d` into a `0x` prefix. The result is
      the value of `d`, negated under `-`; trailing text is ignored and
      leading zeros do not change the value. */
  lemma ParseIntOfDecimal(w: string, p: string, d: string, rest: string)
    requires forall i :: 0 <= i < |w| ==> IsWhiteSpace(w[i])
    requires p == "" || p == "+" || p == "-"
    requires d != [] && forall i :: 0 <= i < |d| ==> IsRadixDigit(d[i], 10)
    requires rest == [] || !IsRadixDigit(rest[0], 10)
    requires !(d == "0" && rest != [] && (rest[0] == 'x' || rest[0] == 'X'))
    ensures ParseInt(w + p + d + rest) == ApplySign(p == "-", Some(DigitsValue(d, 10)))
  {
    Regroup(w, p, d, rest);
    TrimToSign(w, p, d + rest);
    ParseUnsignedOfRun(d, rest);
    ParseIntSplit(w + p + d + rest, p, d + rest);
  }

  /** White space before an optional sign and a digit is skipped exactly. */
  lemma TrimToSign(w: string, p: string, u: string)
    requires forall i :: 0 <= i < |w| ==> IsWhiteSpace(w[i])
    requires p == "" || p == "+" || p == "-"
    requires u != [] && IsDecimalDigit(u[0])
    ensures TrimStart(w + (p + u)) == p + u
  {
    assert (p + u)[0] == if p == "" then u[0] else p[0];
    TrimStartOfBlanks(w, p + u);
  }

  /** `parseInt` of hexadecimal text: after white space and an optional sign,
      `0x` or `0X`, a run of hexadecimal digits `h`, and a tail that does not
      continue them. The result is the value of `h` in radix 16, negated
      under `-`. */
  lemma ParseIntOfHex(w: string, p: string, x: char, h: string, rest: string)
    requires forall i :: 0 <= i < |w| ==> IsWhiteSpace(w[i])
    requires p == "" || p == "+" || p == "-"
    requires x == 'x' || x == 'X'
    requires h != [] && forall i :: 0 <= i < |h| ==> IsRadixDigit(h[i], 16)
    requires rest == [] || !IsRadixDigit(rest[0], 16)
    ensures ParseInt(w + p + ['0', x] + h + rest) == ApplySign(p == "-", Some(DigitsValue(h, 16)))
  {
    var u := ['0', x] + (h + rest);
    Regroup(w, p, ['0', x], h + rest);
    Assoc(w + p + ['0', x], h, rest);
    TrimToSign(w, p, u);
    ParseUnsignedOfHex(x, h, rest);
    ParseIntSplit(w + p + ['0', x] + h + rest, p, u);
  }

  /** After `0x` or `0X`, the run of hexadecimal digits is read in radix 16. */
  lemma ParseUnsignedOfHex(x: char, h: string, rest: string)
    requires x == 'x' || x == 'X'
    requires h != [] && forall i :: 0 <= i < |h| ==> IsRadixDigit(h[i], 16)
    requires rest == [] || !IsRadixDigit(rest[0], 16)
    ensures ParseUnsigned(['0', x] + (h + rest)) == Some(DigitsValue(h, 16))
  {
    DropPrefix(['0', x], h + rest);
    DigitPrefixOfRun(h, rest, 16);
  }

  /** `parseInt` is the unsigned reading of what follows the white space and
      the optional sign, negated under `-`. */
  lemma ParseIntSplit(s: string, p: string, u: string)
    requires TrimStart(s) == p + u
    requires p == "" || p == "+" || p == "-"
    requires p == "" ==> u == [] || (u[0] != '-' && u[0] != '+')
    ensures ParseInt(s) == ApplySign(p == "-", ParseUnsigned(u))
  {
    var t := TrimStart(s);
    if p != "" {
      assert t[0] == p[0] && t[1..] == u;
    } else {
      assert t == u;
    }
  }

  /** A decimal run followed by a non-digit that does not make a `0x` prefix
      is read as that run. */
  lemma ParseUnsignedOfRun(d: string, rest: string)
    requires d != [] && forall i :: 0 <= i < |d| ==> IsRadixDigit(d[i], 10)
    requires rest == [] || !IsRadixDigit(rest[0], 10)
    requires !(d == "0" && rest != [] && (rest[0] == 'x' || rest[0] == 'X'))
    ensures ParseUnsigned(d + rest) == Some(DigitsValue(d, 10))
  {
    var u := d + rest;
    assert !(|u| >= 2 && u[0] == '0' && (u[1] == 'x' || u[1] == 'X')) by {
      if |u| >= 2 && u[0] == '0' {
        if |d| >= 2 {
          assert u[1] == d[1] && IsRadixDigit(d[1], 10);
        } else {
          assert d == "0" && u[1] == rest[0];
        }
      }
    }
    DigitPrefixOfRun(d, rest, 10);
  }

  /** Text starting with a character that is neither white space, a sign nor
      a decimal digit reads as NaN. */
  lemma ParseIntOfLetter(s: string)
    requires s != [] && !IsWhiteSpace(s[0]) && s[0] != '-' && s[0] != '+' && !IsDecimalDigit(s[0])
    ensures ParseInt(s) == None
  {
    TrimStartOfBlanks("", s);
    assert "" + s == s;
    ParseIntSplit(s, "", s);
  }

  /** Distinct integers have distinct decimal strings. */
  lemma IntToStringInjective(a: int, b: int)
    requires a != b
    ensures IntToString(a) != IntToString(b)
  {
    ParseIntOfIntToString(a);
    ParseIntOfIntToString(b);
  }

  /** A boolean cell's text reads as NaN. */
  lemma ParseIntOfBoolCell(b: bool)
    ensures ParseInt(ToJsString(Bool(b))) == None
  {
    ParseIntOfLetter(ToJsString(Bool(b)));
  }

  /** A numeric cell always parses back to its number. */
  lemma ParseIntOfNumberCell(n: int)
    ensures ParseInt(ToJsString(Num(n))) == Some(n)
  {
    ParseIntOfIntToString(n);
  }
}

=== FILE: session.dfy ===
/** A working session: the page's events applied one after another, the
    invariant they keep, and the behaviour of a freshly imported roster. */
module Session {
  import opened Js
  import opened Delivery
  import opened FileUpload
  import opened Index

  /** The upload handler end to end: with no rows nothing is loaded and the
      state is untouched; otherwise the mapped roster is loaded once. */
  function UploadFile(st: AppState, rows: seq<Row>): (st': AppState)
    requires Parsable(rows)
    ensures rows == [] ==> st' == st
    ensures rows != [] ==>
      && |st'.data.customers| == |rows|
      && DistinctIds(st'.data.customers)
      && Consistent(st'.data)
      && st'.scannerOpen == st.scannerOpen && st'.resultOpen == st.resultOpen
    ensures rows != [] ==> st'.data.customers == ReadRows(rows).customers && st'.scannedCustomer == st.scannedCustomer
  {
    match ReadRows(rows)
    case NoData => st
    case Loaded(cs) => HandleDataLoaded(st, cs)
  }

  /** What the user (or a scanner) can do on the page. */
  datatype Event =
    | Upload(rows: seq<Row>)
    | Scan(code: string, now: Timestamp)
    | ReloadFile
    | OpenScannerButton
    | CloseScannerDialog
    | CloseResultDialog

  predicate ValidEvent(e: Event) {
    e.Upload? ==> Parsable(e.rows)
  }

  /** One event. The upload form is only on the page while the roster is
      empty, so an upload against a loaded roster does nothing. A scan comes
      from the camera dialog's decode callback, which runs the scan handler
      and then closes the scanner dialog; when the handler throws, the
      closing is skipped and the state is as it was. */
  function Step(st: AppState, e: Event): (st': AppState)
    requires ValidEvent(e)
    ensures e.Upload? && st.data.customers != [] ==> st' == st
    ensures e.Upload? && st.data.customers == [] ==> st' == UploadFile(st, e.rows)
    ensures e.ReloadFile? ==> st'.data == EmptyData
    ensures !e.Upload? && !e.ReloadFile? ==>
      && st'.data.totalCustomers == st.data.totalCustomers
      && st'.data.totalParcels == st.data.totalParcels
      && |st'.data.customers| == |st.data.customers|
    ensures e.Scan? && HandleQRScan(st, e.code, e.now).outcome.TypeError? ==> st' == st
    ensures e.Scan? && !HandleQRScan(st, e.code, e.now).outcome.TypeError? ==>
      st' == CloseScanner(HandleQRScan(st, e.code, e.now).state)
    ensures e.ReloadFile? ==> st' == Reset(st)
    ensures e.OpenScannerButton? ==> st' == OpenScanner(st)
    ensures e.CloseScannerDialog? ==> st' == CloseScanner(st)
    ensures e.CloseResultDialog? ==> st' == CloseResult(st)
  {
    match e
    case Upload(rows) => if st.data.customers == [] then UploadFile(st, rows) else st
    case Scan(code, now) =>
      var r := HandleQRScan(st, code, now);
      if r.outcome.TypeError? then r.state else CloseScanner(r.state)
    case ReloadFile => Reset(st)
    case OpenScannerButton => OpenScanner(st)
    case CloseScannerDialog => CloseScanner(st)
    case CloseResultDialog => CloseResult(st)
  }

  /** The events in order. */
  function Run(st: AppState, es: seq<Event>): AppState
    requires forall i :: 0 <= i < |es| ==> ValidEvent(es[i])
    decreases |es|
  {
    if es == [] then st else Run(Step(st, es[0]), es[1..])
  }

  /** A customer's count and flag agree: never scanned means not complete and
      no scan time; once scanned, the count is positive and the flag says
      whether it reached the expected parcels. */
  predicate Honest(c: Customer) {
    match c.scannedParcels
    case None => !c.scanned && c.scanTime.None?
    case Some(n) => n >= 1 && (c.scanned <==> n >= c.parcels) && c.scanTime.Some?
  }

  /** The session invariant: consistent aggregates, distinct ids, honest
      customers. */
  predicate Good(st: AppState) {
    && Consistent(st.data)
    && DistinctIds(st.data.customers)
    && forall i :: 0 <= i < |st.data.customers| ==> Honest(st.data.customers[i])
  }

  /** Bumping one customer keeps every customer honest and the ids distinct. */
  lemma BumpKeepsHonest(cs: seq<Customer>, i: int, now: Timestamp)
    requires 0 <= i < |cs|
    requires DistinctIds(cs) && forall j :: 0 <= j < |cs| ==> Honest(cs[j])
    ensures var cs' := cs[i := Bump(cs[i], now)];
      && DistinctIds(cs')
      && forall j :: 0 <= j < |cs'| ==> Honest(cs'[j])
  {
    var cs' := cs[i := Bump(cs[i], now)];
    forall j | 0 <= j < |cs'|
      ensures Honest(cs'[j])
    {
      assert Honest(cs[j]);
    }
    forall a, b | 0 <= a < b < |cs'|
      ensures cs'[a].id != cs'[b].id
    {
      assert cs'[a].id == cs[a].id && cs'[b].id == cs[b].id;
    }
  }

  /** A scan keeps the session invariant. */
  lemma ScanKeepsGood(st: AppState, code: string, now: Timestamp)
    requires Good(st)
    ensures Good(HandleQRScan(st, code, now).state)
  {
    var cs := st.data.customers;
    if HandleQRScan(st, code, now).outcome.Scanned? {
      var i :| FirstStop(cs, code, i) && Test(cs[i], code) == Hit;
      ScanWithDistinctIds(st, code, now, i);
      BumpKeepsHonest(cs, i, now);
    }
  }

  /** Loading a file into an empty roster gives a good state. */
  lemma UploadKeepsGood(st: AppState, rows: seq<Row>)
    requires Good(st) && Parsable(rows)
    ensures Good(UploadFile(st, rows))
  {
    if rows != [] {
      var cs := ReadRows(rows).customers;
      assert UploadFile(st, rows).data.customers == cs;
      forall i | 0 <= i < |cs|
        ensures Honest(cs[i])
      {
      }
    }
  }

  /** A scan that does not throw always leaves the scanner dialog closed,
      a "not found" one included, and changes the roster exactly as the
      scan handler does; one that throws changes nothing. */
  lemma ScanClosesScanner(st: AppState, code: string, now: Timestamp)
    ensures var r := HandleQRScan(st, code, now);
      var st' := Step(st, Scan(code, now));
      && (r.outcome.TypeError? ==> st' == st)
      && (!r.outcome.TypeError? ==> !st'.scannerOpen && st'.data == r.state.data)
      && (r.outcome.NotFound? ==> st'.data == st.data && st'.resultOpen == st.resultOpen)
  {
  }

  /** Every event keeps the session invariant. */
  lemma StepKeepsGood(st: AppState, e: Event)
    requires Good(st) && ValidEvent(e)
    ensures Good(Step(st, e))
  {
    match e
    case Upload(rows) =>
      if st.data.customers == [] {
        UploadKeepsGood(st, rows);
      }
    case Scan(code, now) =>
      ScanKeepsGood(st, code, now);
      assert Step(st, e).data == HandleQRScan(st, code, now).state.data;
    case ReloadFile =>
    case OpenScannerButton =>
    case CloseScannerDialog =>
    case CloseResultDialog =>
  }

  /** The invariant holds after any run of events from a good state, in
      particular from the initial state. */
  lemma {:induction false} RunKeepsGood(st: AppState, es: seq<Event>)
    requires Good(st)
    requires forall i :: 0 <= i < |es| ==> ValidEvent(es[i])
    ensures Good(Run(st, es))
    decreases |es|
  {
    if es != [] {
      StepKeepsGood(st, es[0]);
      RunKeepsGood(Step(st, es[0]), es[1..]);
    }
  }

  /** In a good state, a successful scan adds exactly one scanned parcel to
      the aggregate and changes exactly the matched customer. */
  lemma ScanAddsOne(st: AppState, code: string, now: Timestamp)
    requires Good(st)
    requires HandleQRScan(st, code, now).outcome.Scanned?
    ensures HandleQRScan(st, code, now).state.data.scannedParcels == st.data.scannedParcels + 1
    ensures exists i :: (FirstStop(st.data.customers, code, i)
                         && HandleQRScan(st, code, now).state.data.customers
                            == st.data.customers[i := Bump(st.data.customers[i], now)])
  {
    var cs := st.data.customers;
    var i :| FirstStop(cs, code, i) && Test(cs[i], code) == Hit;
    ScanWithDistinctIds(st, code, now, i);
  }

  /** Imported customers carry no waybill number, so once a file is loaded
      every scan throws at the first customer and changes nothing. */
  lemma ImportedRosterScanThrows(st: AppState, rows: seq<Row>, code: string, now: Timestamp)
    requires Parsable(rows) && rows != []
    ensures var loaded := UploadFile(st, rows);
      && HandleQRScan(loaded, code, now).outcome == TypeError
      && HandleQRScan(loaded, code, now).state == loaded
  {
    var loaded := UploadFile(st, rows);
    assert Test(loaded.data.customers[0], code) == Throw;
    assert FirstStop(loaded.data.customers, code, 0);
  }

  // ---------------------------------------------------------------------
  // Worked examples

  /** A roster of one customer with waybill `AWB001` and two parcels: the
      code `awb-001` is not found (separators are not stripped); `awb001`
      scanned twice completes the customer, and a third scan takes the count
      past the expected parcels. */
  lemma WaybillScenario(now: Timestamp)
    ensures
      var c := Customer("1", Some("AWB001"), Str("Client"), 2, false, None, None);
      var st := HandleDataLoaded(Initial(), [c]);
      var dashed := HandleQRScan(st, "awb-001", now);
      var s1 := HandleQRScan(st, "awb001", now);
      var s2 := HandleQRScan(s1.state, "awb001", now);
      var s3 := HandleQRScan(s2.state, "awb001", now);
      && dashed.outcome == NotFound && dashed.state == st
      && s1.outcome.Scanned? && !s1.outcome.complete && s1.state.data.scannedParcels == 1
      && s2.outcome.Scanned? && s2.outcome.complete && s2.state.data.scannedParcels == 2
      && s3.outcome.Scanned? && s3.outcome.complete
      && s3.state.data.customers[0].scannedParcels == Some(3)
      && s3.state.data.scannedParcels == 3
  {
    var c := Customer("1", Some("AWB001"), Str("Client"), 2, false, None, None);
    var st := HandleDataLoaded(Initial(), [c]);
    assert st.data.customers == [c];
    WaybillCodes(c);
    assert HandleQRScan(st, "awb-001", now) == ScanStep(st, NotFound) by {
      assert forall j :: 0 <= j < |st.data.customers| ==> Test(st.data.customers[j], "awb-001") == Miss;
    }
    ScanOnlyCustomer(st, "awb001", now);
    var s1 := HandleQRScan(st, "awb001", now);
    var c1 := Bump(c, now);
    assert ScannedOf(c1) == 1 && !c1.scanned;
    assert Test(c1, "awb001") == Hit;
    ScanOnlyCustomer(s1.state, "awb001", now);
    var s2 := HandleQRScan(s1.state, "awb001", now);
    var c2 := Bump(c1, now);
    assert ScannedOf(c2) == 2 && c2.scanned;
    assert Test(c2, "awb001") == Hit;
    ScanOnlyCustomer(s2.state, "awb001", now);
    var c3 := Bump(c2, now);
    assert ScannedOf(c3) == 3 && c3.scanned && c3.scannedParcels == Some(3);
  }

  /** The dashed code misses the waybill `AWB001`; the bare code hits it. */
  lemma WaybillCodes(c: Customer)
    requires c == Customer("1", Some("AWB001"), Str("Client"), 2, false, None, None)
    ensures Test(c, "awb-001") == Miss && Test(c, "awb001") == Hit
  {
    assert Lower("AWB001") == "awb001" && Lower("awb001") == "awb001";
    assert Lower("awb-001") == "awb-001" && Lower("Client") == "client";
    assert !Includes("client", "awb-001") by {
      assert forall p :: OccursAt("client", "awb-001", p) ==> |"awb-001"| <= |"client"|;
    }
  }

  /** A roster of one customer that the code hits: the scan bumps it and the
      aggregate becomes its count. */
  lemma ScanOnlyCustomer(st: AppState, code: string, now: Timestamp)
    requires |st.data.customers| == 1 && Test(st.data.customers[0], code) == Hit
    ensures var r := HandleQRScan(st, code, now);
      var b := Bump(st.data.customers[0], now);
      && r.state.data.customers == [b]
      && r.outcome == Scanned(b, b.scanned)
      && r.state.data.scannedParcels == ScannedOf(b)
  {
    var b := Bump(st.data.customers[0], now);
    assert FirstStop(st.data.customers, code, 0);
    ScanWithDistinctIds(st, code, now, 0);
    assert [b][1..] == [];
  }
}
